=== FILE: README.md ===
# sistemacompras: order and stock choreography in Dafny

Two Spring services coordinate orders and stock through two RabbitMQ queues.

- The **order side** (`pedidos-service`) validates a new order (`Pedido`). It checks each item against what the product service answers. It then saves the order as `PENDENTE` and publishes it on the request queue.
- The **stock side** (`produtos-service`) consumes the order. It checks and decrements stock item by item (`atualizarEstoque`) and sends back one `PedidoStatusResponse`, either `CONFIRMADO` or `FALHA_ESTOQUE`.
- The **order side** consumes that response and overwrites the order's status (`receberStatus`).

This project models those three pieces of business logic as pure functions over maps from id to record. It also models the stock side's product CRUD and the single-product reservation `reservarEstoque`. Each operation returns its result (or the exception it raises), the new store, and the queue it appends to. The module `Coreografia` wires the services into a transition system: create an order, process the head of the request queue, apply the head of the response queue, or call `atualizar`, `deletar` or `reservarEstoque` on the product store.

The model follows the code as written, which is neither all-or-nothing nor idempotent:

- `atualizarEstoque` is not all-or-nothing. Items granted before or after a short item stay decremented, and the order is answered `FALHA_ESTOQUE` (`ProdutoService.AtualizarEstoqueParcial`).
- `receberStatus` does not check the order's current status. The last response applied wins, also over `CONFIRMADO` (`PedidoStatusConsumer.ReceberStatusUltimaVence`).
- The stock side keeps no record of processed orders. A redelivered request takes the stock a second time (`Coreografia.PedidoReentregueDecrementaDuasVezes`).
- The intake checks each item against the snapshot on its own. Repeated products can pass intake and then fail at the stock side (`Coreografia.FluxoItensRepetidos`).
- `Integer` stock and quantities are 32-bit. The code never rejects a negative quantity, and `estoque - quantidade` can wrap around to a negative stock (`ProdutoService.ReservarEstoqueQuantidadeNegativaTransborda`). `atualizar` likewise stores whatever stock it is sent, negative included (`Coreografia.EstoqueNegativoSemPedido`). Starting from a store with no negative stock and no queued order with a negative quantity, stock stays non-negative for every run in which no order item or reservation asks for a negative quantity and no update sends a negative stock (`Coreografia.EstoqueNuncaNegativo`).

Modules:

- `Wrappers`: `Result`, which stands in for the exceptions.
- `Int32`: the range of Java `int` and its wrap-around subtraction.
- `Modelos`: `Produto`, `ItemPedido`, `Pedido`, `PedidoStatusResponse`, the errors and the status strings.
- `ProdutoService`, `PedidoService`, `PedidoStatusConsumer`: the services.
- `Coreografia`: the system state and its steps.

Replaced by parameters:

- The HTTP lookup of the order side becomes a snapshot map `Catalogo`. The intake step takes any snapshot, which covers stale ones; `Coreografia.Consultar` builds the one matching the current store.
- The database-generated order id becomes `novoId`.

## Model

| member | source | states |
|---|---|---|
| ProdutoService.BuscarPorId | produtos-service/src/main/java/org/example/services/ProdutoService.java:39-42 | the stored product when the id exists, not-found exactly when it does not |
| ProdutoService.Atualizar | produtos-service/src/main/java/org/example/services/ProdutoService.java:44-51 | not-found and no change for an unknown id; otherwise name, price and stock come from the update, the stored id is kept, and every other product is unchanged |
| ProdutoService.AtualizarPreservaBemFormado | produtos-service/src/main/java/org/example/services/ProdutoService.java:45-50 | updating keeps every product stored under its own id |
| ProdutoService.Deletar | produtos-service/src/main/java/org/example/services/ProdutoService.java:53-58 | not-found and no change for an absent id; otherwise exactly that id is removed and all other products are unchanged |
| ProdutoService.AtualizarDepoisBuscar | produtos-service/src/main/java/org/example/services/ProdutoService.java:44-51 | after a successful update, looking the product up returns what the update returned |
| ProdutoService.DeletarDepoisBuscar | produtos-service/src/main/java/org/example/services/ProdutoService.java:53-58 | after deleting, looking the id up raises not-found |
| ProdutoService.Decrementar | produtos-service/src/main/java/org/example/services/ProdutoService.java:98-105 | the check-then-decrement step: it decrements iff stock >= quantity, and then only that product's stock changes; otherwise nothing changes |
| ProdutoService.ReservarEstoque | produtos-service/src/main/java/org/example/services/ProdutoService.java:68-84 | not-found and no change for an unknown id; false and no change when stock < quantity; otherwise true, the stock becomes the Java `int` difference of stock and quantity (wrapping around when a negative quantity overflows it), it stays non-negative for non-negative inputs, and other products are unchanged |
| ProdutoService.ReservarEstoqueQuantidadeNegativaTransborda | produtos-service/src/main/java/org/example/services/ProdutoService.java:72-77 | a negative quantity passes the check, and at the top of the int range the subtraction wraps to a negative stock |
| ProdutoService.AplicarItens | produtos-service/src/main/java/org/example/services/ProdutoService.java:94-106 | the item loop completes iff every item's product exists; otherwise it fails on the first missing one. It changes only stock, leaves unreferenced products alone, and keeps stock non-negative for non-negative quantities |
| ProdutoService.QuantidadesDe | produtos-service/src/main/java/org/example/services/ProdutoService.java:94-98 | the quantities asked of one product are non-negative when the order's are, and empty when the order does not name it |
| ProdutoService.AplicarItensEstoque | produtos-service/src/main/java/org/example/services/ProdutoService.java:94-105 | the loop leaves each product where its own requests, checked in order, take it: later items see earlier decrements of the same product and nothing else |
| ProdutoService.EstoqueAposLiquido | produtos-service/src/main/java/org/example/services/ProdutoService.java:98-99 | per product, the stock the checks leave is the initial stock minus the sum of the granted requests, as 32-bit int arithmetic |
| ProdutoService.EstoqueAposSemTransbordo | produtos-service/src/main/java/org/example/services/ProdutoService.java:98-99 | without negative quantities or stock, that net effect is exact integer subtraction and stays within 0..initial |
| ProdutoService.AplicarItensSucesso | produtos-service/src/main/java/org/example/services/ProdutoService.java:92-108 | the success flag is true iff no item took the insufficient-stock branch |
| ProdutoService.Resposta | produtos-service/src/main/java/org/example/services/ProdutoService.java:108-113 | the response carries the order id, with CONFIRMADO and its message on success and FALHA_ESTOQUE and its message otherwise |
| ProdutoService.AtualizarEstoque | produtos-service/src/main/java/org/example/services/ProdutoService.java:90-115 | a missing product raises not-found, sends nothing and rolls the stock back; otherwise exactly one response for the order id is appended and only stock fields change |
| ProdutoService.AtualizarEstoqueEfeito | produtos-service/src/main/java/org/example/services/ProdutoService.java:92-114 | the response is CONFIRMADO iff every request was granted, and each product ends where its own requests take it, also on FALHA_ESTOQUE |
| ProdutoService.AtualizarEstoqueParcial | produtos-service/src/main/java/org/example/services/ProdutoService.java:94-108 | for lines (P1, 2) and (P2, 100) with 10 of each, the answer is FALHA_ESTOQUE and P1 keeps its decrement |
| ProdutoService.AtualizarEstoqueMesmoProduto | produtos-service/src/main/java/org/example/services/ProdutoService.java:94-105 | two items of 3 on a stock of 5: the second sees the first's decrement and is refused |
| ProdutoService.ReservarEstoqueComoPedidoUnitario | produtos-service/src/main/java/org/example/services/ProdutoService.java:68-106 | a one-item order leaves the same stock as the synchronous reservation of that item, and is CONFIRMADO iff the reservation answers true |
| PedidoService.ValidarItens | pedidos-service/src/main/java/org/example/services/PedidoService.java:33-61 | the item check passes iff every product was found with stock >= quantity, and sums price times quantity; otherwise it fails on the first bad item with the single rewrapped error kind |
| PedidoService.CriarPedido | pedidos-service/src/main/java/org/example/services/PedidoService.java:28-74 | on failure nothing is saved or published; on success the order with the caller's items, status PENDENTE and the new id is saved, exactly that order is appended to the request queue, and other orders are unchanged |
| PedidoService.CriarPedidoSemItens | pedidos-service/src/main/java/org/example/services/PedidoService.java:33-64 | an order with no items passes vacuously and is created PENDENTE |
| PedidoService.CriarPedidoPreservaBemFormado | pedidos-service/src/main/java/org/example/services/PedidoService.java:63-68 | creation keeps every order stored under its own id |
| PedidoService.BuscarPorId | pedidos-service/src/main/java/org/example/services/PedidoService.java:76-78 | the stored order when the id exists, an error exactly when it does not |
| PedidoService.CriarDepoisBuscar | pedidos-service/src/main/java/org/example/services/PedidoService.java:68-78 | the order a successful creation returns is the one a later lookup by its id finds |
| PedidoStatusConsumer.ReceberStatus | pedidos-service/src/main/java/org/example/consumers/PedidoStatusConsumer.java:18-25 | an existing order takes the response's status and keeps its id, items and total; an unknown id changes nothing; other orders are unchanged |
| PedidoStatusConsumer.ReceberStatusIdempotente | pedidos-service/src/main/java/org/example/consumers/PedidoStatusConsumer.java:21-23 | applying the same response twice equals applying it once |
| PedidoStatusConsumer.ReceberStatusUltimaVence | pedidos-service/src/main/java/org/example/consumers/PedidoStatusConsumer.java:22 | of two responses for one order the last one wins, whatever came before |
| PedidoStatusConsumer.ReceberStatusSemGuarda | pedidos-service/src/main/java/org/example/consumers/PedidoStatusConsumer.java:21-23 | a CONFIRMADO order becomes FALHA_ESTOQUE when such a response arrives |
| PedidoStatusConsumer.ReceberStatusPreservaBemFormado | pedidos-service/src/main/java/org/example/consumers/PedidoStatusConsumer.java:21-23 | applying a response keeps every order stored under its own id |
| Coreografia.Consultar | pedidos-service/src/main/java/org/example/services/PedidoService.java:37-41 | the snapshot the intake sees holds every stored product with its current stock |
| Coreografia.Criar | pedidos-service/src/main/java/org/example/services/PedidoService.java:63-69 | intake never touches product stock or the response queue; a rejected order changes nothing; an accepted one is stored PENDENTE under the one new key `novoId` and queued, every other stored order unchanged |
| Coreografia.ProcessarPedido | produtos-service/src/main/java/org/example/consumers/PedidoConsumer.java:23-32 | the head request is consumed; a missing product drops it with no stock change and no response; otherwise one response for that order is appended after the earlier ones, only stock fields change, and products the order does not name are unchanged |
| Coreografia.AplicarStatus | pedidos-service/src/main/java/org/example/consumers/PedidoStatusConsumer.java:17-25 | the head response is consumed and, when its order exists, sets that order's status and nothing else of it; every other order, the products and the requests are untouched |
| Coreografia.ChamarProdutos | produtos-service/src/main/java/org/example/services/ProdutoService.java:44-84 | a synchronous update, delete or reservation changes only the product store and, in it, only the named product: keys kept (minus the id on delete), the update's stock stored as sent, a covered reservation lowers the stock by the quantity in Java `int` arithmetic and a short one leaves it, nothing changed for an unknown id, orders and queues untouched |
| Coreografia.PassoPreservaInvariante | pedidos-service/src/main/java/org/example/services/PedidoService.java:63-69 | every step keeps the stores keyed by id, keeps order statuses in {PENDENTE, CONFIRMADO, FALHA_ESTOQUE}, and keeps every queued message pointing to a stored order |
| Coreografia.ExecutarPreservaInvariante | pedidos-service/src/main/java/org/example/services/PedidoService.java:63-69 | the same holds after any sequence of steps |
| Coreografia.EstoqueNuncaNegativo | produtos-service/src/main/java/org/example/services/ProdutoService.java:98-100 | in any run of order, processing, status, update, delete and reservation steps where no order item or reservation has a negative quantity and no update a negative stock, no stock ever becomes negative |
| Coreografia.EstoqueNegativoSemPedido | produtos-service/src/main/java/org/example/services/ProdutoService.java:44-84 | without the side conditions non-negativity fails with no order at all: an update stores stock -5 as sent, and reserving -1 units at the top of the `int` range wraps the stock to its minimum |
| Coreografia.FluxoCompleto | produtos-service/src/main/java/org/example/services/ProdutoService.java:90-115 | create, process, apply: the order ends CONFIRMADO iff every item was granted, otherwise FALHA_ESTOQUE with the granted decrements kept; a missing product leaves it PENDENTE with stock untouched |
| Coreografia.FluxoItensRepetidos | pedidos-service/src/main/java/org/example/services/PedidoService.java:45-46 | an order for 3 + 3 units of a product with 5 in stock passes intake, is answered FALHA_ESTOQUE, and 3 units are taken |
| Coreografia.AtendidoSemRepeticao | pedidos-service/src/main/java/org/example/services/PedidoService.java:45-46 | an order validated against current stock, with no repeated product, has every item granted if processed at once |
| Coreografia.PedidoReentregueDecrementaDuasVezes | produtos-service/src/main/java/org/example/consumers/PedidoConsumer.java:23-32 | a request delivered twice decrements stock twice and produces two responses |
| Int32.Sub | produtos-service/src/main/java/org/example/services/ProdutoService.java:77 | Java int subtraction: exact when in range, within 0..a for 0 <= b <= a, negative when a negative subtrahend overflows |

## Left out

- `salvar` and `listar` of `ProdutoService`, and `listarPedidos` of `PedidoService`: plain repository save and read-all with no logic. Id generation on save would be a JPA detail. The transition system therefore has no step that adds a product; a run starts from any product store.
- Controllers: HTTP plumbing. `ProdutoController.reservarEstoque` ignores the boolean result; that quirk is in the HTTP layer, not the services.
- RabbitMQ configuration and producers: transport. A send is an append to a sequence and a delivery is taking the head. Broker redelivery is shown by placing a message in the queue twice.
- The HTTP call in `criarPedido`: a foreign network call. It is a snapshot map. Every way the lookup can fail (non-2xx status, empty body, client exception, a missing or ill-typed field) is one case: the id is absent from the snapshot.
- `preco` and `valorTotal` are Java `double`s. They are modelled as `real`, so rounding is not modelled. No property depends on them beyond the total being the sum of price times quantity.
- Null fields are not modelled: every field has a value. A null item list or quantity makes the intake and stock paths fail on a null dereference. `atualizar` (and `salvar`) store a null name, price or stock they are sent, and a later read of that stock fails the same way.
- The JPA id on an order the caller submits with an id already set: `CriarPedido` always stores under the generated `novoId`.
- Concurrency and isolation: the code has no locks. The model is sequential, and `@Transactional` appears only as "an exception leaves the store as before".
- Logging.

=== FILE: coreografia.dfy ===
/**
 The two services wired together: the product store, the order store, the
 request queue (orders published by the intake) and the response queue
 (status responses published by the stock side). Each step consumes or
 produces messages in queue order; delivery is modelled as taking the head
 of a queue.
 */
module Coreografia {
  import opened Int32
  import opened Modelos
  import ProdutoService
  import PedidoService
  import PedidoStatusConsumer

  datatype Sistema = Sistema(
    produtos: Produtos,
    pedidos: Pedidos,
    filaPedidos: seq<Pedido>,
    filaStatus: seq<PedidoStatusResponse>)

  /** What the stock side's `GET /produtos/{id}` answers right now, for every id. */
  function Consultar(produtos: Produtos): (c: PedidoService.Catalogo)
    ensures c.Keys == produtos.Keys
    ensures forall k :: k in c ==> c[k].quantidadeEmEstoque == produtos[k].quantidadeEmEstoque
  {
    map k | k in produtos :: PedidoService.ProdutoConsultado(produtos[k].nome, produtos[k].preco, produtos[k].quantidadeEmEstoque)
  }

  /** The events that move the system. */
  datatype Acao =
    | NovoPedido(catalogo: PedidoService.Catalogo, pedido: Pedido, novoId: Id) // `POST /pedidos`
    | ConsumirPedido                                                        // `PedidoConsumer.receberPedido`
    | ConsumirStatus                                                        // `PedidoStatusConsumer.receberStatus`
    | AtualizarProduto(id: Id, dados: Produto)                              // `ProdutoService.atualizar`
    | DeletarProduto(id: Id)                                                // `ProdutoService.deletar`
    | ReservarProduto(id: Id, quantidade: int32)                            // `ProdutoService.reservarEstoque`

  /** Order intake: reads a snapshot of the products, never the product store itself. */
  function Criar(s: Sistema, catalogo: PedidoService.Catalogo, pedido: Pedido, novoId: Id): (r: Sistema)
    ensures r.produtos == s.produtos
    ensures r.filaStatus == s.filaStatus
    ensures !PedidoService.ItensValidos(catalogo, pedido.itens) ==> r == s
    ensures PedidoService.ItensValidos(catalogo, pedido.itens) ==>
      && novoId in r.pedidos
      && r.filaPedidos == s.filaPedidos + [r.pedidos[novoId]]
      && r.pedidos[novoId].status == Pendente
      && r.pedidos[novoId].itens == pedido.itens
      && r.pedidos.Keys == s.pedidos.Keys + {novoId}
      && (forall k :: k in s.pedidos && k != novoId ==> r.pedidos[k] == s.pedidos[k])
  {
    var c := PedidoService.CriarPedido(s.pedidos, s.filaPedidos, catalogo, pedido, novoId);
    s.(pedidos := c.pedidos, filaPedidos := c.fila)
  }

  /**
   The stock side takes the first request off its queue and runs
   `atualizarEstoque` on it. The consumer catches the exception a missing
   product raises, so that message is dropped with no stock change and no
   response.
   */
  function ProcessarPedido(s: Sistema): (r: Sistema)
    ensures |s.filaPedidos| == 0 ==> r == s
    ensures |s.filaPedidos| > 0 ==>
      var pedido := s.filaPedidos[0];
      && r.filaPedidos == s.filaPedidos[1..]
      && r.pedidos == s.pedidos
      && r.produtos.Keys == s.produtos.Keys
      && (!ProdutoService.ProdutosExistem(s.produtos.Keys, pedido.itens) ==>
            r.produtos == s.produtos && r.filaStatus == s.filaStatus)
      && (ProdutoService.ProdutosExistem(s.produtos.Keys, pedido.itens) ==>
            && |r.filaStatus| == |s.filaStatus| + 1
            && r.filaStatus[..|s.filaStatus|] == s.filaStatus
            && r.filaStatus[|s.filaStatus|].pedidoId == pedido.id
            && (forall k :: k in s.produtos ==> ProdutoService.SoEstoqueMuda(s.produtos[k], r.produtos[k]))
            && (forall k :: k in s.produtos && ProdutoService.NaoReferenciado(k, pedido.itens) ==>
                  r.produtos[k] == s.produtos[k]))
  {
    if |s.filaPedidos| == 0 then s
    else
      var p := ProdutoService.AtualizarEstoque(s.produtos, s.filaStatus, s.filaPedidos[0]);
      s.(produtos := p.produtos, filaStatus := p.respostas, filaPedidos := s.filaPedidos[1..])
  }

  /** The order side takes the first response off its queue and applies it. */
  function AplicarStatus(s: Sistema): (r: Sistema)
    ensures |s.filaStatus| == 0 ==> r == s
    ensures |s.filaStatus| > 0 ==>
      && r.filaStatus == s.filaStatus[1..]
      && r.produtos == s.produtos
      && r.filaPedidos == s.filaPedidos
      && r.pedidos.Keys == s.pedidos.Keys
      && (s.filaStatus[0].pedidoId in s.pedidos ==>
            && r.pedidos[s.filaStatus[0].pedidoId].status == s.filaStatus[0].status
            && r.pedidos[s.filaStatus[0].pedidoId].(status := s.pedidos[s.filaStatus[0].pedidoId].status)
               == s.pedidos[s.filaStatus[0].pedidoId])
      && (forall k :: k in s.pedidos && k != s.filaStatus[0].pedidoId ==> r.pedidos[k] == s.pedidos[k])
  {
    if |s.filaStatus| == 0 then s
    else s.(pedidos := PedidoStatusConsumer.ReceberStatus(s.pedidos, s.filaStatus[0]), filaStatus := s.filaStatus[1..])
  }

  /**
   A synchronous call on the product store: only the products change, to the
   store the call leaves behind (unchanged when it raises not-found).
   */
  function ChamarProdutos(s: Sistema, a: Acao): (r: Sistema)
    requires a.AtualizarProduto? || a.DeletarProduto? || a.ReservarProduto?
    ensures r.pedidos == s.pedidos && r.filaPedidos == s.filaPedidos && r.filaStatus == s.filaStatus
    ensures a.id !in s.produtos ==> r == s
    ensures a.DeletarProduto? ==> r.produtos.Keys == s.produtos.Keys - {a.id}
    ensures !a.DeletarProduto? ==> r.produtos.Keys == s.produtos.Keys
    ensures a.AtualizarProduto? && a.id in s.produtos ==>
      r.produtos[a.id].quantidadeEmEstoque == a.dados.quantidadeEmEstoque
    ensures forall k :: k in r.produtos && k != a.id ==> r.produtos[k] == s.produtos[k]
    ensures a.ReservarProduto? && a.id in s.produtos ==>
      var antes := s.produtos[a.id].quantidadeEmEstoque;
      r.produtos[a.id].quantidadeEmEstoque == if antes >= a.quantidade then Sub(antes, a.quantidade) else antes
  {
    match a
    case AtualizarProduto(id, dados) => s.(produtos := ProdutoService.Atualizar(s.produtos, id, dados).produtos)
    case DeletarProduto(id) => s.(produtos := ProdutoService.Deletar(s.produtos, id).produtos)
    case ReservarProduto(id, quantidade) => s.(produtos := ProdutoService.ReservarEstoque(s.produtos, id, quantidade).produtos)
  }

  function Passo(s: Sistema, a: Acao): Sistema {
    match a
    case NovoPedido(catalogo, pedido, novoId) => Criar(s, catalogo, pedido, novoId)
    case ConsumirPedido => ProcessarPedido(s)
    case ConsumirStatus => AplicarStatus(s)
    case _ => ChamarProdutos(s, a)
  }

  function Executar(s: Sistema, acoes: seq<Acao>): Sistema
    decreases |acoes|
  {
    if |acoes| == 0 then s else Executar(Passo(s, acoes[0]), acoes[1..])
  }

  // ---------------------------------------------------------------------------
  // Invariants of every run
  // ---------------------------------------------------------------------------

  /** The statuses the services ever write into an order. */
  predicate StatusConhecido(status: string) {
    status == Pendente || status == Confirmado || status == FalhaEstoque
  }

  /**
   The stores are keyed by their records' ids, every order ever written has a
   known status, and every queued message refers to a stored order. Since
   the services never delete orders, a response always finds its order.
   */
  ghost predicate Invariante(s: Sistema) {
    && ProdutosBemFormados(s.produtos)
    && PedidosBemFormados(s.pedidos)
    && (forall k :: k in s.pedidos ==> StatusConhecido(s.pedidos[k].status))
    && (forall i :: 0 <= i < |s.filaPedidos| ==> s.filaPedidos[i].id in s.pedidos)
    && (forall i :: 0 <= i < |s.filaStatus| ==>
          s.filaStatus[i].pedidoId in s.pedidos
          && (s.filaStatus[i].status == Confirmado || s.filaStatus[i].status == FalhaEstoque))
  }

  lemma CriarPreservaInvariante(s: Sistema, catalogo: PedidoService.Catalogo, pedido: Pedido, novoId: Id)
    requires Invariante(s)
    ensures Invariante(Criar(s, catalogo, pedido, novoId))
  {
    var r := Criar(s, catalogo, pedido, novoId);
    if PedidoService.ItensValidos(catalogo, pedido.itens) {
      forall i | 0 <= i < |r.filaPedidos| ensures r.filaPedidos[i].id in r.pedidos {
        if i < |s.filaPedidos| { assert r.filaPedidos[i] == s.filaPedidos[i]; }
      }
    }
  }

  lemma ProcessarPedidoPreservaInvariante(s: Sistema)
    requires Invariante(s)
    ensures Invariante(ProcessarPedido(s))
  {
    if |s.filaPedidos| > 0 {
      var r := ProcessarPedido(s);
      var p := ProdutoService.AtualizarEstoque(s.produtos, s.filaStatus, s.filaPedidos[0]);
      assert r.produtos == p.produtos && r.filaStatus == p.respostas;
      if p.resultado.Success? {
        forall i | 0 <= i < |r.filaStatus|
          ensures r.filaStatus[i].pedidoId in r.pedidos
          ensures r.filaStatus[i].status == Confirmado || r.filaStatus[i].status == FalhaEstoque
        {
          if i < |s.filaStatus| { assert r.filaStatus[i] == r.filaStatus[..|s.filaStatus|][i]; }
        }
      }
      forall i | 0 <= i < |r.filaPedidos| ensures r.filaPedidos[i].id in r.pedidos {
        assert r.filaPedidos[i] == s.filaPedidos[i + 1];
      }
    }
  }

  lemma AplicarStatusPreservaInvariante(s: Sistema)
    requires Invariante(s)
    ensures Invariante(AplicarStatus(s))
  {
    if |s.filaStatus| > 0 {
      var r := AplicarStatus(s);
      forall i | 0 <= i < |r.filaStatus|
        ensures r.filaStatus[i].pedidoId in r.pedidos
      {
        assert r.filaStatus[i] == s.filaStatus[i + 1];
      }
    }
  }

  lemma ChamarProdutosPreservaInvariante(s: Sistema, a: Acao)
    requires a.AtualizarProduto? || a.DeletarProduto? || a.ReservarProduto?
    requires Invariante(s)
    ensures Invariante(ChamarProdutos(s, a))
  {
    if a.AtualizarProduto? {
      ProdutoService.AtualizarPreservaBemFormado(s.produtos, a.id, a.dados);
    }
  }

  lemma PassoPreservaInvariante(s: Sistema, a: Acao)
    requires Invariante(s)
    ensures Invariante(Passo(s, a))
  {
    match a
    case NovoPedido(catalogo, pedido, novoId) => CriarPreservaInvariante(s, catalogo, pedido, novoId);
    case ConsumirPedido => ProcessarPedidoPreservaInvariante(s);
    case ConsumirStatus => AplicarStatusPreservaInvariante(s);
    case _ => ChamarProdutosPreservaInvariante(s, a);
  }

  lemma {:induction false} ExecutarPreservaInvariante(s: Sistema, acoes: seq<Acao>)
    requires Invariante(s)
    ensures Invariante(Executar(s, acoes))
    decreases |acoes|
  {
    if |acoes| > 0 {
      PassoPreservaInvariante(s, acoes[0]);
      ExecutarPreservaInvariante(Passo(s, acoes[0]), acoes[1..]);
    }
  }

  /** No stock is negative, and no queued order asks for a negative quantity. */
  ghost predicate EstoqueSeguro(s: Sistema) {
    && EstoqueNaoNegativo(s.produtos)
    && forall i :: 0 <= i < |s.filaPedidos| ==> QuantidadesNaoNegativas(s.filaPedidos[i].itens)
  }

  /**
   The action carries no negative number the code would accept: no order item
   with a negative quantity (the intake does not reject them), no product
   update with a negative stock (`atualizar` stores whatever it is sent) and
   no reservation of a negative quantity (`reservarEstoque` grants it).
   */
  ghost predicate AcaoSemQuantidadeNegativa(a: Acao) {
    && (a.NovoPedido? ==> QuantidadesNaoNegativas(a.pedido.itens))
    && (a.AtualizarProduto? ==> a.dados.quantidadeEmEstoque >= 0)
    && (a.ReservarProduto? ==> a.quantidade >= 0)
  }

  lemma PassoPreservaEstoqueSeguro(s: Sistema, a: Acao)
    requires EstoqueSeguro(s) && AcaoSemQuantidadeNegativa(a)
    ensures EstoqueSeguro(Passo(s, a))
  {
    var r := Passo(s, a);
    match a
    case NovoPedido(catalogo, pedido, novoId) =>
      forall i | 0 <= i < |r.filaPedidos| ensures QuantidadesNaoNegativas(r.filaPedidos[i].itens) {
        if i < |s.filaPedidos| { assert r.filaPedidos[i] == s.filaPedidos[i]; }
      }
    case ConsumirPedido =>
      if |s.filaPedidos| > 0 {
        assert QuantidadesNaoNegativas(s.filaPedidos[0].itens);
        forall i | 0 <= i < |r.filaPedidos| ensures QuantidadesNaoNegativas(r.filaPedidos[i].itens) {
          assert r.filaPedidos[i] == s.filaPedidos[i + 1];
        }
      }
    case ConsumirStatus =>
    case AtualizarProduto(id, dados) =>
    case DeletarProduto(id) =>
    case ReservarProduto(id, quantidade) =>
  }

  /**
   As long as no action carries a negative quantity or stock, stock never
   goes negative, however requests and responses interleave with new orders,
   product updates, deletions and reservations.
   */
  lemma {:induction false} EstoqueNuncaNegativo(s: Sistema, acoes: seq<Acao>)
    requires EstoqueSeguro(s)
    requires forall i :: 0 <= i < |acoes| ==> AcaoSemQuantidadeNegativa(acoes[i])
    ensures EstoqueNaoNegativo(Executar(s, acoes).produtos)
    ensures EstoqueSeguro(Executar(s, acoes))
    decreases |acoes|
  {
    if |acoes| > 0 {
      PassoPreservaEstoqueSeguro(s, acoes[0]);
      assert forall i :: 0 <= i < |acoes[1..]| ==> AcaoSemQuantidadeNegativa(acoes[1..][i]) by {
        forall i | 0 <= i < |acoes[1..]| ensures AcaoSemQuantidadeNegativa(acoes[1..][i]) {
          assert acoes[1..][i] == acoes[i + 1];
        }
      }
      EstoqueNuncaNegativo(Passo(s, acoes[0]), acoes[1..]);
    }
  }

  /**
   Without the side condition the claim fails, with no order involved at all:
   `atualizar` stores a negative stock as sent, and reserving -1 units of a
   product at the top of the `int` range wraps its stock to the bottom.
   */
  lemma EstoqueNegativoSemPedido()
    ensures
      var s := Sistema(map[1 := Produto(1, "a", 1.0, 5), 2 := Produto(2, "b", 1.0, Max)], map[], [], []);
      var r := Executar(s, [AtualizarProduto(1, Produto(0, "a", 1.0, -5)), ReservarProduto(2, -1)]);
      && EstoqueSeguro(s)
      && r.produtos[1].quantidadeEmEstoque == -5
      && r.produtos[2].quantidadeEmEstoque == Min
  {
  }

  // ---------------------------------------------------------------------------
  // One order from creation to its final status
  // ---------------------------------------------------------------------------

  /** A run of three actions is the three steps one after another. */
  lemma ExecutarTres(s: Sistema, a: Acao, b: Acao, c: Acao)
    ensures Executar(s, [a, b, c]) == Passo(Passo(Passo(s, a), b), c)
  {
    var s1 := Passo(s, a);
    var s2 := Passo(s1, b);
    assert [a, b, c][1..] == [b, c];
    assert Executar(s, [a, b, c]) == Executar(s1, [b, c]);
    assert [b, c][1..] == [c];
    assert Executar(s1, [b, c]) == Executar(s2, [c]);
    assert [c][1..] == [];
    assert Executar(s2, [c]) == Executar(Passo(s2, c), []);
  }

  /**
   With both queues empty, creating an order, processing its request and
   applying the response leaves both queues empty again. When every product
   of the order exists, the order ends `CONFIRMADO` exactly when every item
   was granted against the stock of the moment, and the stock reflects the
   granted items, also when the order ends `FALHA_ESTOQUE`. When a product is
   missing, the request is dropped and the order stays `PENDENTE`.
   */
  lemma FluxoCompleto(s: Sistema, catalogo: PedidoService.Catalogo, pedido: Pedido, novoId: Id)
    requires s.filaPedidos == [] && s.filaStatus == []
    requires PedidoService.ItensValidos(catalogo, pedido.itens)
    ensures
      var s3 := Executar(s, [NovoPedido(catalogo, pedido, novoId), ConsumirPedido, ConsumirStatus]);
      && s3.filaPedidos == [] && s3.filaStatus == []
      && s3.pedidos.Keys == s.pedidos.Keys + {novoId}
      && s3.produtos.Keys == s.produtos.Keys
      && s3.pedidos[novoId].itens == pedido.itens
      && (forall k :: k in s.pedidos && k != novoId ==> s3.pedidos[k] == s.pedidos[k])
      && (ProdutoService.ProdutosExistem(s.produtos.Keys, pedido.itens) ==>
            && (s3.pedidos[novoId].status == Confirmado <==> ProdutoService.PedidoAtendido(s.produtos, pedido.itens))
            && (s3.pedidos[novoId].status == FalhaEstoque <==> !ProdutoService.PedidoAtendido(s.produtos, pedido.itens))
            && (forall k :: k in s.produtos ==>
                  s3.produtos[k].quantidadeEmEstoque == ProdutoService.EstoqueFinal(s.produtos, pedido.itens, k)))
      && (!ProdutoService.ProdutosExistem(s.produtos.Keys, pedido.itens) ==>
            s3.pedidos[novoId].status == Pendente && s3.produtos == s.produtos)
  {
    var s1 := Criar(s, catalogo, pedido, novoId);
    var salvo := s1.pedidos[novoId];
    assert s1.filaPedidos == [salvo];
    var s2 := ProcessarPedido(s1);
    var s3 := AplicarStatus(s2);
    ExecutarTres(s, NovoPedido(catalogo, pedido, novoId), ConsumirPedido, ConsumirStatus);
    if ProdutoService.ProdutosExistem(s.produtos.Keys, pedido.itens) {
      ProdutoService.AtualizarEstoqueEfeito(s.produtos, [], salvo);
    }
  }

  /**
   The intake checks each item on its own against the snapshot, not the sum
   of the items for one product: an order for 3 + 3 units of a product with
   5 in stock is accepted as `PENDENTE` and then answered `FALHA_ESTOQUE`,
   with the first 3 units taken.
   */
  lemma FluxoItensRepetidos()
    ensures
      var s := Sistema(map[1 := Produto(1, "a", 1.0, 5)], map[], [], []);
      var pedido := Pedido(0, [ItemPedido(1, 3), ItemPedido(1, 3)], 0.0, "");
      var s3 := Executar(s, [NovoPedido(Consultar(s.produtos), pedido, 9), ConsumirPedido, ConsumirStatus]);
      && 9 in s3.pedidos && 1 in s3.produtos
      && s3.pedidos[9].status == FalhaEstoque
      && s3.produtos[1].quantidadeEmEstoque == 2
  {
    var s := Sistema(map[1 := Produto(1, "a", 1.0, 5)], map[], [], []);
    var pedido := Pedido(0, [ItemPedido(1, 3), ItemPedido(1, 3)], 0.0, "");
    var c := Consultar(s.produtos);
    assert PedidoService.ItemValido(c, pedido.itens[0]) && PedidoService.ItemValido(c, pedido.itens[1]);
    var s1 := Criar(s, c, pedido, 9);
    var salvo := s1.pedidos[9];
    assert s1.filaPedidos == [salvo];
    ProdutoService.AtualizarEstoqueMesmoProduto(salvo);
    var s2 := ProcessarPedido(s1);
    assert s2.filaStatus == [PedidoStatusResponse(9, FalhaEstoque, MensagemFalha)];
    var s3 := AplicarStatus(s2);
    ExecutarTres(s, NovoPedido(c, pedido, 9), ConsumirPedido, ConsumirStatus);
  }

  /** No two items of the order name the same product. */
  predicate SemProdutoRepetido(itens: seq<ItemPedido>) {
    forall i, j :: 0 <= i < j < |itens| ==> itens[i].idProduto != itens[j].idProduto
  }

  /** Without repeated products, each product is asked for at most once. */
  lemma {:induction false} QuantidadesDeSemRepeticao(id: Id, itens: seq<ItemPedido>)
    requires SemProdutoRepetido(itens)
    ensures |ProdutoService.QuantidadesDe(id, itens)| <= 1
    ensures |ProdutoService.QuantidadesDe(id, itens)| == 1 ==>
      exists i :: 0 <= i < |itens| && itens[i].idProduto == id
                  && ProdutoService.QuantidadesDe(id, itens) == [itens[i].quantidade]
    decreases |itens|
  {
    if |itens| > 0 {
      var resto := itens[1..];
      assert SemProdutoRepetido(resto) by {
        forall i, j | 0 <= i < j < |resto| ensures resto[i].idProduto != resto[j].idProduto {
          assert resto[i] == itens[i + 1] && resto[j] == itens[j + 1];
        }
      }
      QuantidadesDeSemRepeticao(id, resto);
      if itens[0].idProduto == id {
        assert ProdutoService.NaoReferenciado(id, resto) by {
          forall i | 0 <= i < |resto| ensures resto[i].idProduto != id {
            assert resto[i] == itens[i + 1];
          }
        }
        assert ProdutoService.QuantidadesDe(id, itens) == [itens[0].quantidade];
      } else if |ProdutoService.QuantidadesDe(id, resto)| == 1 {
        var i :| 0 <= i < |resto| && resto[i].idProduto == id
                 && ProdutoService.QuantidadesDe(id, resto) == [resto[i].quantidade];
        assert itens[i + 1] == resto[i];
      }
    }
  }

  /**
   When the intake validated the order against the current stock and no
   product repeats, the stock side grants every item if it processes the
   request before anything else changes the stock.
   */
  lemma {:induction false} AtendidoSemRepeticao(produtos: Produtos, itens: seq<ItemPedido>)
    requires PedidoService.ItensValidos(Consultar(produtos), itens)
    requires SemProdutoRepetido(itens)
    ensures ProdutoService.ProdutosExistem(produtos.Keys, itens)
    ensures ProdutoService.PedidoAtendido(produtos, itens)
  {
    var c := Consultar(produtos);
    forall i | 0 <= i < |itens| ensures itens[i].idProduto in produtos {
      assert PedidoService.ItemValido(c, itens[i]);
    }
    forall k | k in produtos
      ensures ProdutoService.TodasAtendidas(produtos[k].quantidadeEmEstoque, ProdutoService.QuantidadesDe(k, itens))
    {
      QuantidadesDeSemRepeticao(k, itens);
      var qs := ProdutoService.QuantidadesDe(k, itens);
      if |qs| == 1 {
        var i :| 0 <= i < |itens| && itens[i].idProduto == k && qs == [itens[i].quantidade];
        assert PedidoService.ItemValido(c, itens[i]);
        assert qs[1..] == [];
      }
    }
  }

  // ---------------------------------------------------------------------------
  // Redelivery
  // ---------------------------------------------------------------------------

  /**
   The stock side keeps no record of processed orders: the same request
   delivered twice is processed twice, takes the stock twice and sends two
   responses.
   */
  lemma PedidoReentregueDecrementaDuasVezes()
    ensures
      var pedido := Pedido(7, [ItemPedido(1, 2)], 0.0, Pendente);
      var s := Sistema(map[1 := Produto(1, "p", 1.0, 10)], map[7 := pedido], [pedido, pedido], []);
      var r := Executar(s, [ConsumirPedido, ConsumirPedido]);
      && r.produtos[1].quantidadeEmEstoque == 6
      && |r.filaStatus| == 2
  {
  }
}

=== FILE: int32.dfy ===
/**
 Java's 32-bit `int`: the range of `Integer` fields and the two's-complement
 wrap-around of `int` subtraction, written out over Dafny's unbounded integers.
 */
module Int32 {

  const Min: int := -0x8000_0000
  const Max: int := 0x7fff_ffff
  const Modulus: int := 0x1_0000_0000

  type int32 = x: int | -0x8000_0000 <= x <= 0x7fff_ffff

  /** Reduces `x` into the 32-bit range, as the JVM does with the result of an `int` operation. */
  function Wrap(x: int): (r: int32)
    ensures Min <= x <= Max ==> r == x
    ensures (x - r) % Modulus == 0
  {
    (x - Min) % Modulus + Min
  }

  /**
   Java `a - b` on two `int`s. The exact difference of two 32-bit values is
   at most one modulus out of range, so one correction brings it back.
   */
  function Sub(a: int32, b: int32): (r: int32)
    ensures Min <= a - b <= Max ==> r == a - b
    ensures 0 <= b <= a ==> 0 <= r <= a
    ensures b < 0 && a - b > Max ==> r < 0
  {
    var d := a - b;
    if d > Max then d - Modulus else if d < Min then d + Modulus else d
  }

  /** `Sub` is the wrapped difference. */
  lemma SubWrap(a: int32, b: int32)
    ensures Sub(a, b) == Wrap(a - b)
  {
  }

  /** Wrapping an intermediate result does not change the final wrapped value. */
  lemma WrapSub(x: int, y: int)
    ensures Wrap(Wrap(x) - y) == Wrap(x - y)
  {
  }
}

=== FILE: modelos.dfy ===
/**
 The records both services exchange: products, orders with their items, the
 status response, and the errors the services raise. Stores are maps from id
 to record, standing in for the JPA repositories.
 */
module Modelos {
  import opened Int32

  /** A JPA `Long` primary key; the services only compare ids. */
  type Id = int

  /** `Produto`: a product with its stock, an `Integer`. */
  datatype Produto = Produto(id: Id, nome: string, preco: real, quantidadeEmEstoque: int32)

  /** `ItemPedido`: one line of an order. */
  datatype ItemPedido = ItemPedido(idProduto: Id, quantidade: int32)

  /**
   `Pedido`: an order. The status is whatever string was last written to it,
   which is why it is a string and not an enumeration.
   */
  datatype Pedido = Pedido(id: Id, itens: seq<ItemPedido>, valorTotal: real, status: string)

  /** `PedidoStatusResponse`: the outcome the stock side sends back for one order. */
  datatype PedidoStatusResponse = PedidoStatusResponse(pedidoId: Id, status: string, mensagem: string)

  /** Why a product lookup made by the order side failed. */
  datatype Causa =
    | NaoEncontradoNoServico(id: Id)
    | EstoqueInsuficiente(id: Id)

  /** The exceptions the services throw. */
  datatype Erro =
    | ProdutoNaoEncontrado(id: Id)      // EntityNotFoundException / RuntimeException on the stock side
    | PedidoNaoEncontrado(id: Id)       // RuntimeException("Pedido não encontrado")
    | ConsultaProdutoFalhou(causa: Causa) // the rewrapped RuntimeException of order creation

  const Pendente: string := "PENDENTE"
  const Confirmado: string := "CONFIRMADO"
  const FalhaEstoque: string := "FALHA_ESTOQUE"
  const MensagemSucesso: string := "Estoque atualizado com sucesso."
  const MensagemFalha: string := "Erro ao atualizar estoque. Produto(s) insuficientes."

  type Produtos = map<Id, Produto>
  type Pedidos = map<Id, Pedido>

  /** Every stored record carries the key it is stored under. */
  ghost predicate ProdutosBemFormados(produtos: Produtos) {
    forall k :: k in produtos ==> produtos[k].id == k
  }

  ghost predicate PedidosBemFormados(pedidos: Pedidos) {
    forall k :: k in pedidos ==> pedidos[k].id == k
  }

  /** No product has negative stock. */
  ghost predicate EstoqueNaoNegativo(produtos: Produtos) {
    forall k :: k in produtos ==> produtos[k].quantidadeEmEstoque >= 0
  }

  /** Every item of the order asks for a non-negative quantity. */
  ghost predicate QuantidadesNaoNegativas(itens: seq<ItemPedido>) {
    forall i :: 0 <= i < |itens| ==> itens[i].quantidade >= 0
  }
}

=== FILE: pedido_service.dfy ===
/**
 `PedidoService` of the order side: order intake and lookup. The HTTP query to
 the stock side is replaced by a snapshot of what that side answered for each
 product id, and the id the database generates is a parameter.
 */
module PedidoService {
  import opened Wrappers
  import opened Int32
  import opened Modelos

  /** The fields of a successful `GET /produtos/{id}` answer that the intake reads. */
  datatype ProdutoConsultado = ProdutoConsultado(nome: string, preco: real, quantidadeEmEstoque: int32)

  /**
   Point-in-time answers of the stock side. An id that is absent stands for
   every failed lookup: a non-2xx status, an empty body or a client exception.
   */
  type Catalogo = map<Id, ProdutoConsultado>

  /** The item passes the intake check: its product was found with enough stock. */
  predicate ItemValido(catalogo: Catalogo, item: ItemPedido) {
    item.idProduto in catalogo && catalogo[item.idProduto].quantidadeEmEstoque >= item.quantidade
  }

  predicate ItensValidos(catalogo: Catalogo, itens: seq<ItemPedido>) {
    forall i :: 0 <= i < |itens| ==> ItemValido(catalogo, itens[i])
  }

  /** Why an item fails the intake check. */
  function CausaDe(catalogo: Catalogo, item: ItemPedido): Causa {
    if item.idProduto !in catalogo then NaoEncontradoNoServico(item.idProduto)
    else EstoqueInsuficiente(item.idProduto)
  }

  /** The sum of price times quantity over the items, each looked up in the snapshot. */
  function Valor(catalogo: Catalogo, itens: seq<ItemPedido>): real
    requires ItensValidos(catalogo, itens)
  {
    if |itens| == 0 then 0.0
    else catalogo[itens[0].idProduto].preco * (itens[0].quantidade as real) + Valor(catalogo, itens[1..])
  }

  /**
   The item loop of `criarPedido`: checks the items in order against the
   snapshot, adding each subtotal to `acumulado`. The first item whose product
   is unknown or short stops the loop; whichever it was, the error is
   rewrapped into the single kind the intake raises.
   */
  function ValidarItens(catalogo: Catalogo, itens: seq<ItemPedido>, acumulado: real): (r: Result<real, Erro>)
    decreases |itens|
    ensures r.Success? <==> ItensValidos(catalogo, itens)
    ensures r.Success? ==> r.value == acumulado + Valor(catalogo, itens)
    ensures r.Failure? ==>
      exists i :: 0 <= i < |itens| && !ItemValido(catalogo, itens[i])
                  && ItensValidos(catalogo, itens[..i])
                  && r.error == ConsultaProdutoFalhou(CausaDe(catalogo, itens[i]))
  {
    if |itens| == 0 then Success(acumulado)
    else
      var item := itens[0];
      if !ItemValido(catalogo, item) then
        assert ItensValidos(catalogo, itens[..0]);
        Failure(ConsultaProdutoFalhou(CausaDe(catalogo, item)))
      else
        var subtotal := catalogo[item.idProduto].preco * (item.quantidade as real);
        var r := ValidarItens(catalogo, itens[1..], acumulado + subtotal);
        assert ItensValidos(catalogo, itens) <==> ItensValidos(catalogo, itens[1..]) by {
          if ItensValidos(catalogo, itens[1..]) {
            forall i | 0 <= i < |itens| ensures ItemValido(catalogo, itens[i]) {
              if i > 0 { assert itens[i] == itens[1..][i - 1]; }
            }
          }
          if ItensValidos(catalogo, itens) {
            forall i | 0 <= i < |itens[1..]| ensures ItemValido(catalogo, itens[1..][i]) {
              assert itens[1..][i] == itens[i + 1];
            }
          }
        }
        assert r.Failure? ==> (exists i :: 0 <= i < |itens| && !ItemValido(catalogo, itens[i])
                                           && ItensValidos(catalogo, itens[..i])
                                           && r.error == ConsultaProdutoFalhou(CausaDe(catalogo, itens[i]))) by {
          if r.Failure? {
            var j :| 0 <= j < |itens[1..]| && !ItemValido(catalogo, itens[1..][j])
                     && ItensValidos(catalogo, itens[1..][..j])
                     && r.error == ConsultaProdutoFalhou(CausaDe(catalogo, itens[1..][j]));
            assert itens[j + 1] == itens[1..][j];
            var prefixo := itens[..j + 1];
            assert ItensValidos(catalogo, prefixo) by {
              forall i | 0 <= i < j + 1 ensures ItemValido(catalogo, prefixo[i]) {
                if i > 0 { assert prefixo[i] == itens[1..][..j][i - 1]; }
              }
            }
          }
        }
        r
  }

  /** What order creation returns together with the order store and the request queue. */
  datatype Criacao = Criacao(resultado: Result<Pedido, Erro>, pedidos: Pedidos, fila: seq<Pedido>)

  /**
   `criarPedido`: validates every item against the snapshot; on any failure
   the order is neither saved nor published. Otherwise the order gets the
   total and status `PENDENTE`, is saved under the generated id `novoId`, and
   the saved order is then appended, once, to the request queue and returned.
   */
  function CriarPedido(pedidos: Pedidos, fila: seq<Pedido>, catalogo: Catalogo, pedido: Pedido, novoId: Id): (r: Criacao)
    ensures r.resultado.Success? <==> ItensValidos(catalogo, pedido.itens)
    ensures r.resultado.Failure? ==>
      && r.resultado.error.ConsultaProdutoFalhou?
      && r.pedidos == pedidos
      && r.fila == fila
    ensures r.resultado.Success? ==>
      var salvo := r.resultado.value;
      && salvo.id == novoId
      && salvo.itens == pedido.itens
      && salvo.status == Pendente
      && salvo.valorTotal == Valor(catalogo, pedido.itens)
      && r.pedidos.Keys == pedidos.Keys + {novoId}
      && r.pedidos[novoId] == salvo
      && (forall k :: k in pedidos && k != novoId ==> r.pedidos[k] == pedidos[k])
      && r.fila == fila + [salvo]
  {
    match ValidarItens(catalogo, pedido.itens, 0.0)
    case Failure(e) => Criacao(Failure(e), pedidos, fila)
    case Success(valorTotal) =>
      var salvo := pedido.(id := novoId, valorTotal := valorTotal, status := Pendente);
      Criacao(Success(salvo), pedidos[novoId := salvo], fila + [salvo])
  }

  /** An order without items passes the check vacuously and is created `PENDENTE`. */
  lemma CriarPedidoSemItens(pedidos: Pedidos, fila: seq<Pedido>, catalogo: Catalogo, pedido: Pedido, novoId: Id)
    requires pedido.itens == []
    ensures
      var r := CriarPedido(pedidos, fila, catalogo, pedido, novoId);
      && r.resultado.Success?
      && r.resultado.value.status == Pendente
      && r.resultado.value.valorTotal == 0.0
      && r.fila == fila + [r.resultado.value]
  {
  }

  /**
   Creation keeps the order store keyed by id for any generated id; an id
   already in use overwrites the stored order under it.
   */
  lemma CriarPedidoPreservaBemFormado(pedidos: Pedidos, fila: seq<Pedido>, catalogo: Catalogo, pedido: Pedido, novoId: Id)
    requires PedidosBemFormados(pedidos)
    ensures PedidosBemFormados(CriarPedido(pedidos, fila, catalogo, pedido, novoId).pedidos)
  {
  }

  /** `buscarPorId`: the stored order, or an error when the id is absent. */
  function BuscarPorId(pedidos: Pedidos, id: Id): (r: Result<Pedido, Erro>)
    ensures r.Success? <==> id in pedidos
    ensures r.Success? ==> r.value == pedidos[id]
    ensures r.Failure? ==> r.error == PedidoNaoEncontrado(id)
  {
    if id in pedidos then Success(pedidos[id]) else Failure(PedidoNaoEncontrado(id))
  }

  /** The order `criarPedido` returns is the one a later `buscarPorId` finds. */
  lemma CriarDepoisBuscar(pedidos: Pedidos, fila: seq<Pedido>, catalogo: Catalogo, pedido: Pedido, novoId: Id)
    ensures
      var r := CriarPedido(pedidos, fila, catalogo, pedido, novoId);
      r.resultado.Success? ==> BuscarPorId(r.pedidos, novoId) == r.resultado
  {
  }
}

=== FILE: pedido_status_consumer.dfy ===
/**
 `PedidoStatusConsumer`: applies a status response from the stock side to the
 order store. There is no check of the order's current status.
 */
module PedidoStatusConsumer {
  import opened Modelos

  /**
   `receberStatus`: when the order exists its status becomes the response's
   status and nothing else about it changes; an unknown order id leaves the
   store as it was.
   */
  function ReceberStatus(pedidos: Pedidos, resposta: PedidoStatusResponse): (r: Pedidos)
    ensures r.Keys == pedidos.Keys
    ensures resposta.pedidoId !in pedidos ==> r == pedidos
    ensures resposta.pedidoId in pedidos ==>
      var antes := pedidos[resposta.pedidoId];
      var depois := r[resposta.pedidoId];
      && depois.status == resposta.status
      && depois.id == antes.id
      && depois.itens == antes.itens
      && depois.valorTotal == antes.valorTotal
    ensures forall k :: k in pedidos && k != resposta.pedidoId ==> r[k] == pedidos[k]
  {
    if resposta.pedidoId in pedidos then
      pedidos[resposta.pedidoId := pedidos[resposta.pedidoId].(status := resposta.status)]
    else pedidos
  }

  /** Applying the same response a second time changes nothing. */
  lemma ReceberStatusIdempotente(pedidos: Pedidos, resposta: PedidoStatusResponse)
    ensures ReceberStatus(ReceberStatus(pedidos, resposta), resposta) == ReceberStatus(pedidos, resposta)
  {
  }

  /**
   The last response for an order wins, whatever the order's status was: a
   later response overwrites a `CONFIRMADO` or `FALHA_ESTOQUE` just as it
   overwrites `PENDENTE`.
   */
  lemma ReceberStatusUltimaVence(pedidos: Pedidos, primeira: PedidoStatusResponse, segunda: PedidoStatusResponse)
    requires primeira.pedidoId == segunda.pedidoId
    ensures ReceberStatus(ReceberStatus(pedidos, primeira), segunda) == ReceberStatus(pedidos, segunda)
  {
  }

  /** A confirmed order goes back to `FALHA_ESTOQUE` when such a response arrives afterwards. */
  lemma ReceberStatusSemGuarda(pedidos: Pedidos, id: Id)
    requires id in pedidos && pedidos[id].status == Confirmado
    ensures ReceberStatus(pedidos, PedidoStatusResponse(id, FalhaEstoque, MensagemFalha))[id].status == FalhaEstoque
  {
  }

  lemma ReceberStatusPreservaBemFormado(pedidos: Pedidos, resposta: PedidoStatusResponse)
    requires PedidosBemFormados(pedidos)
    ensures PedidosBemFormados(ReceberStatus(pedidos, resposta))
  {
  }
}

=== FILE: produto_service.dfy ===
/**
 `ProdutoService` of the stock side: keyed CRUD on products, the synchronous
 single-product reservation, and the stock update that processes an order
 received from the request queue.
 */
module ProdutoService {
  import opened Wrappers
  import opened Int32
  import opened Modelos

  /** What a stock-side operation returns together with the product store it leaves behind. */
  datatype Efeito<+T> = Efeito(resultado: Result<T, Erro>, produtos: Produtos)

  /** Only the stock of a product may differ between `antes` and `depois`. */
  predicate SoEstoqueMuda(antes: Produto, depois: Produto) {
    depois.(quantidadeEmEstoque := antes.quantidadeEmEstoque) == antes
  }

  // ---------------------------------------------------------------------------
  // CRUD
  // ---------------------------------------------------------------------------

  /** `buscarPorId`: the stored product, or not-found. */
  function BuscarPorId(produtos: Produtos, id: Id): (r: Result<Produto, Erro>)
    ensures r.Success? <==> id in produtos
    ensures r.Success? ==> r.value == produtos[id]
    ensures r.Failure? ==> r.error == ProdutoNaoEncontrado(id)
  {
    if id in produtos then Success(produtos[id]) else Failure(ProdutoNaoEncontrado(id))
  }

  /**
   `atualizar`: copies name, price and stock from `dados` onto the stored product,
   keeping the stored id, and saves it. An unknown id raises not-found.
   */
  function Atualizar(produtos: Produtos, id: Id, dados: Produto): (r: Efeito<Produto>)
    ensures r.resultado.Failure? <==> id !in produtos
    ensures r.resultado.Failure? ==> r.resultado.error == ProdutoNaoEncontrado(id) && r.produtos == produtos
    ensures r.resultado.Success? ==>
      var salvo := r.resultado.value;
      && salvo.id == produtos[id].id
      && salvo.nome == dados.nome
      && salvo.preco == dados.preco
      && salvo.quantidadeEmEstoque == dados.quantidadeEmEstoque
      && r.produtos.Keys == produtos.Keys
      && r.produtos[id] == salvo
      && (forall k :: k in produtos && k != id ==> r.produtos[k] == produtos[k])
  {
    match BuscarPorId(produtos, id)
    case Failure(e) => Efeito(Failure(e), produtos)
    case Success(produto) =>
      var salvo := produto.(nome := dados.nome, preco := dados.preco,
                            quantidadeEmEstoque := dados.quantidadeEmEstoque);
      Efeito(Success(salvo), produtos[id := salvo])
  }

  /** `deletar`: removes exactly the given id; an absent id raises not-found. */
  function Deletar(produtos: Produtos, id: Id): (r: Efeito<()>)
    ensures r.resultado.Failure? <==> id !in produtos
    ensures r.resultado.Failure? ==> r.resultado.error == ProdutoNaoEncontrado(id) && r.produtos == produtos
    ensures r.resultado.Success? ==>
      && r.produtos.Keys == produtos.Keys - {id}
      && |r.produtos| == |produtos| - 1
      && (forall k :: k in r.produtos ==> r.produtos[k] == produtos[k])
  {
    if id !in produtos then Efeito(Failure(ProdutoNaoEncontrado(id)), produtos)
    else
      var restantes := produtos - {id};
      assert produtos.Keys == restantes.Keys + {id};
      Efeito(Success(()), restantes)
  }

  /** Reading a product back after `atualizar` returns what `atualizar` returned. */
  lemma AtualizarDepoisBuscar(produtos: Produtos, id: Id, dados: Produto)
    ensures
      var r := Atualizar(produtos, id, dados);
      r.resultado.Success? ==> BuscarPorId(r.produtos, id) == r.resultado
  {
  }

  /** After `deletar` the product can no longer be found, whether or not it was there. */
  lemma DeletarDepoisBuscar(produtos: Produtos, id: Id)
    ensures BuscarPorId(Deletar(produtos, id).produtos, id) == Failure(ProdutoNaoEncontrado(id))
  {
  }

  lemma AtualizarPreservaBemFormado(produtos: Produtos, id: Id, dados: Produto)
    requires ProdutosBemFormados(produtos)
    ensures ProdutosBemFormados(Atualizar(produtos, id, dados).produtos)
  {
  }

  // ---------------------------------------------------------------------------
  // Stock
  // ---------------------------------------------------------------------------

  /**
   The check-then-decrement both stock operations perform on a product that
   exists: when the stock covers the quantity it is reduced by it (with `int`
   wrap-around) and the answer is true; otherwise nothing changes.
   */
  function Decrementar(produtos: Produtos, id: Id, quantidade: int32): (r: (Produtos, bool))
    requires id in produtos
    ensures r.1 <==> produtos[id].quantidadeEmEstoque >= quantidade
    ensures !r.1 ==> r.0 == produtos
    ensures r.0.Keys == produtos.Keys
    ensures r.1 ==> r.0[id].quantidadeEmEstoque == Sub(produtos[id].quantidadeEmEstoque, quantidade)
    ensures SoEstoqueMuda(produtos[id], r.0[id])
    ensures forall k :: k in produtos && k != id ==> r.0[k] == produtos[k]
  {
    var produto := produtos[id];
    if produto.quantidadeEmEstoque < quantidade then (produtos, false)
    else (produtos[id := produto.(quantidadeEmEstoque := Sub(produto.quantidadeEmEstoque, quantidade))], true)
  }

  /**
   `reservarEstoque`: not-found for an unknown id (nothing changes); false and
   no change when the stock is short; otherwise true and the stock drops by
   `quantidade` in Java `int` arithmetic, every other product untouched.
   */
  function ReservarEstoque(produtos: Produtos, id: Id, quantidade: int32): (r: Efeito<bool>)
    ensures r.resultado.Failure? <==> id !in produtos
    ensures r.resultado.Failure? ==> r.resultado.error == ProdutoNaoEncontrado(id) && r.produtos == produtos
    ensures r.resultado.Success? ==> (r.resultado.value <==> produtos[id].quantidadeEmEstoque >= quantidade)
    ensures r.resultado == Success(false) ==> r.produtos == produtos
    ensures r.resultado == Success(true) ==>
      var antes := produtos[id].quantidadeEmEstoque;
      && r.produtos.Keys == produtos.Keys
      && r.produtos[id].quantidadeEmEstoque == Sub(antes, quantidade)
      && SoEstoqueMuda(produtos[id], r.produtos[id])
      && (forall k :: k in produtos && k != id ==> r.produtos[k] == produtos[k])
    ensures r.resultado == Success(true) && produtos[id].quantidadeEmEstoque >= 0 && quantidade >= 0 ==>
      0 <= r.produtos[id].quantidadeEmEstoque
  {
    match BuscarPorId(produtos, id)
    case Failure(e) => Efeito(Failure(e), produtos)
    case Success(_) =>
      var (depois, reservado) := Decrementar(produtos, id, quantidade);
      Efeito(Success(reservado), depois)
  }

  /**
   A negative quantity always passes the stock check and, at the top of the
   `int` range, the subtraction wraps: the stock becomes negative.
   */
  lemma ReservarEstoqueQuantidadeNegativaTransborda()
    ensures
      var produtos := map[1 := Produto(1, "p", 1.0, Max)];
      var r := ReservarEstoque(produtos, 1, -1);
      r.resultado == Success(true) && r.produtos[1].quantidadeEmEstoque == Min
  {
  }

  // ---------------------------------------------------------------------------
  // Processing an order received from the request queue
  // ---------------------------------------------------------------------------

  /** Every item of the order names one of the product ids `ids`. */
  predicate ProdutosExistem(ids: set<Id>, itens: seq<ItemPedido>) {
    forall i :: 0 <= i < |itens| ==> itens[i].idProduto in ids
  }

  /** `e` is the not-found error for the first item whose product is not among `ids`. */
  predicate FalhaNoPrimeiroAusente(ids: set<Id>, itens: seq<ItemPedido>, e: Erro) {
    exists i :: 0 <= i < |itens| && itens[i].idProduto !in ids
                && e == ProdutoNaoEncontrado(itens[i].idProduto)
                && ProdutosExistem(ids, itens[..i])
  }

  /** No item of the order names product `id`. */
  predicate NaoReferenciado(id: Id, itens: seq<ItemPedido>) {
    forall i :: 0 <= i < |itens| ==> itens[i].idProduto != id
  }

  /** `ProdutosExistem` of a non-empty order splits into its first item and the rest. */
  lemma ItensCauda(ids: set<Id>, itens: seq<ItemPedido>)
    requires |itens| > 0
    ensures ProdutosExistem(ids, itens) <==> itens[0].idProduto in ids && ProdutosExistem(ids, itens[1..])
  {
    if ProdutosExistem(ids, itens[1..]) && itens[0].idProduto in ids {
      forall i | 0 <= i < |itens| ensures itens[i].idProduto in ids {
        if i > 0 { assert itens[i] == itens[1..][i - 1]; }
      }
    }
  }

  /** What holds of every item of an order holds of every item of its rest. */
  lemma CaudaHerda(itens: seq<ItemPedido>)
    requires |itens| > 0
    ensures forall k :: NaoReferenciado(k, itens) ==> NaoReferenciado(k, itens[1..])
    ensures QuantidadesNaoNegativas(itens) ==> QuantidadesNaoNegativas(itens[1..])
  {
  }

  /** A failure on the rest of the order is a failure on the first missing product of the whole order. */
  lemma FalhaNaCauda(ids: set<Id>, itens: seq<ItemPedido>, e: Erro)
    requires |itens| > 0 && itens[0].idProduto in ids
    requires FalhaNoPrimeiroAusente(ids, itens[1..], e)
    ensures FalhaNoPrimeiroAusente(ids, itens, e)
  {
    var resto := itens[1..];
    var j :| 0 <= j < |resto| && resto[j].idProduto !in ids
             && e == ProdutoNaoEncontrado(resto[j].idProduto)
             && ProdutosExistem(ids, resto[..j]);
    var prefixo := itens[..j + 1];
    assert itens[j + 1] == resto[j];
    assert prefixo[1..] == resto[..j];
    ItensCauda(ids, prefixo);
  }

  /** State of the item loop after it has finished: the store and the `sucesso` flag. */
  datatype Aplicacao = Aplicacao(produtos: Produtos, sucesso: bool)

  /**
   The item loop of `atualizarEstoque`, as a fold from the first item to the
   last. Each item looks its product up in the store as the previous items
   left it; a missing product aborts the whole loop. A satisfied item is
   decremented and stays decremented even when a later item is short: the
   flag `sucesso` only records that some item was short.
   */
  function AplicarItens(produtos: Produtos, itens: seq<ItemPedido>, sucesso: bool): (r: Result<Aplicacao, Erro>)
    decreases |itens|
    ensures r.Success? <==> ProdutosExistem(produtos.Keys, itens)
    ensures r.Failure? ==> FalhaNoPrimeiroAusente(produtos.Keys, itens, r.error)
    ensures r.Success? ==> r.value.produtos.Keys == produtos.Keys
    ensures r.Success? ==> forall k :: k in produtos ==> SoEstoqueMuda(produtos[k], r.value.produtos[k])
    ensures r.Success? ==> forall k :: k in produtos && NaoReferenciado(k, itens) ==> r.value.produtos[k] == produtos[k]
    ensures r.Success? && r.value.sucesso ==> sucesso
    ensures r.Success? && EstoqueNaoNegativo(produtos) && QuantidadesNaoNegativas(itens) ==>
      EstoqueNaoNegativo(r.value.produtos)
  {
    if |itens| == 0 then Success(Aplicacao(produtos, sucesso))
    else
      var item := itens[0];
      if item.idProduto !in produtos then
        assert ProdutosExistem(produtos.Keys, itens[..0]);
        Failure(ProdutoNaoEncontrado(item.idProduto))
      else
        var (depois, atendido) := Decrementar(produtos, item.idProduto, item.quantidade);
        var r := AplicarItens(depois, itens[1..], sucesso && atendido);
        ItensCauda(produtos.Keys, itens);
        CaudaHerda(itens);
        if r.Failure? then
          FalhaNaCauda(produtos.Keys, itens, r.error);
          r
        else r
  }

  /** What `atualizarEstoque` leaves behind: the product store and the response queue. */
  datatype Processamento = Processamento(resultado: Result<(), Erro>, produtos: Produtos, respostas: seq<PedidoStatusResponse>)

  /** The response built once the item loop has finished. */
  function Resposta(pedidoId: Id, sucesso: bool): (r: PedidoStatusResponse)
    ensures r.pedidoId == pedidoId
    ensures sucesso ==> r.status == Confirmado && r.mensagem == MensagemSucesso
    ensures !sucesso ==> r.status == FalhaEstoque && r.mensagem == MensagemFalha
  {
    if sucesso then PedidoStatusResponse(pedidoId, Confirmado, MensagemSucesso)
    else PedidoStatusResponse(pedidoId, FalhaEstoque, MensagemFalha)
  }

  /**
   `atualizarEstoque`: runs the item loop and, when it completes, appends exactly
   one response for the order to the response queue. A missing product raises
   an exception: the transaction rolls back, so the store is as before, and
   no response is sent.
   */
  function AtualizarEstoque(produtos: Produtos, respostas: seq<PedidoStatusResponse>, pedido: Pedido): (r: Processamento)
    ensures r.resultado.Success? <==> ProdutosExistem(produtos.Keys, pedido.itens)
    ensures r.resultado.Failure? ==>
      && FalhaNoPrimeiroAusente(produtos.Keys, pedido.itens, r.resultado.error)
      && r.produtos == produtos
      && r.respostas == respostas
    ensures r.resultado.Success? ==>
      && |r.respostas| == |respostas| + 1
      && r.respostas[..|respostas|] == respostas
      && r.respostas[|respostas|].pedidoId == pedido.id
      && (r.respostas[|respostas|].status == Confirmado || r.respostas[|respostas|].status == FalhaEstoque)
      && r.produtos.Keys == produtos.Keys
      && (forall k :: k in produtos ==> SoEstoqueMuda(produtos[k], r.produtos[k]))
      && (forall k :: k in produtos && NaoReferenciado(k, pedido.itens) ==> r.produtos[k] == produtos[k])
  {
    match AplicarItens(produtos, pedido.itens, true)
    case Failure(e) => Processamento(Failure(e), produtos, respostas)
    case Success(a) =>
      var respostas' := respostas + [Resposta(pedido.id, a.sucesso)];
      assert respostas'[..|respostas|] == respostas;
      Processamento(Success(()), a.produtos, respostas')
  }

  // ---------------------------------------------------------------------------
  // Per-product reference for the item loop
  // ---------------------------------------------------------------------------

  /** The quantities the order asks of product `id`, in item order. */
  function QuantidadesDe(id: Id, itens: seq<ItemPedido>): (qs: seq<int32>)
    ensures |qs| <= |itens|
    ensures NaoReferenciado(id, itens) ==> qs == []
    ensures QuantidadesNaoNegativas(itens) ==> forall i :: 0 <= i < |qs| ==> qs[i] >= 0
    decreases |itens|
  {
    if |itens| == 0 then []
    else
      CaudaHerda(itens);
      (if itens[0].idProduto == id then [itens[0].quantidade] else []) + QuantidadesDe(id, itens[1..])
  }

  /**
   The stock of one product after its requests are checked one after another,
   each granted request lowering the stock the next one sees.
   */
  function EstoqueApos(estoque: int32, qs: seq<int32>): int32
    decreases |qs|
  {
    if |qs| == 0 then estoque
    else if estoque >= qs[0] then EstoqueApos(Sub(estoque, qs[0]), qs[1..])
    else EstoqueApos(estoque, qs[1..])
  }

  /** The requests of one product that are granted in that same sequence of checks. */
  function Atendidas(estoque: int32, qs: seq<int32>): (a: seq<int32>)
    ensures |a| <= |qs|
    decreases |qs|
  {
    if |qs| == 0 then []
    else if estoque >= qs[0] then [qs[0]] + Atendidas(Sub(estoque, qs[0]), qs[1..])
    else Atendidas(estoque, qs[1..])
  }

  function Soma(qs: seq<int32>): int
    decreases |qs|
  {
    if |qs| == 0 then 0 else qs[0] + Soma(qs[1..])
  }

  /** Every request of the product was granted. */
  predicate TodasAtendidas(estoque: int32, qs: seq<int32>) {
    |Atendidas(estoque, qs)| == |qs|
  }

  /**
   Net effect on one product: the final stock is the initial stock minus the
   sum of the granted requests, computed as 32-bit `int` arithmetic.
   */
  lemma {:induction false} EstoqueAposLiquido(estoque: int32, qs: seq<int32>)
    ensures EstoqueApos(estoque, qs) == Wrap(estoque - Soma(Atendidas(estoque, qs)))
    decreases |qs|
  {
    if |qs| > 0 && estoque >= qs[0] {
      var s' := Sub(estoque, qs[0]);
      var a' := Atendidas(s', qs[1..]);
      EstoqueAposLiquido(s', qs[1..]);
      assert ([qs[0]] + a')[1..] == a';
      SubWrap(estoque, qs[0]);
      WrapSub(estoque - qs[0], Soma(a'));
    } else if |qs| > 0 {
      EstoqueAposLiquido(estoque, qs[1..]);
    }
  }

  /**
   With a non-negative stock and non-negative requests no subtraction wraps:
   the final stock is exactly the initial stock minus the granted requests,
   and lies between zero and the initial stock.
   */
  lemma {:induction false} EstoqueAposSemTransbordo(estoque: int32, qs: seq<int32>)
    requires estoque >= 0
    requires forall i :: 0 <= i < |qs| ==> qs[i] >= 0
    ensures EstoqueApos(estoque, qs) == estoque - Soma(Atendidas(estoque, qs))
    ensures 0 <= EstoqueApos(estoque, qs) <= estoque
    decreases |qs|
  {
    if |qs| > 0 {
      var resto := qs[1..];
      assert forall i :: 0 <= i < |resto| ==> resto[i] >= 0 by {
        forall i | 0 <= i < |resto| ensures resto[i] >= 0 {
          assert resto[i] == qs[i + 1];
        }
      }
      if estoque >= qs[0] {
        var s' := Sub(estoque, qs[0]);
        EstoqueAposSemTransbordo(s', resto);
        assert ([qs[0]] + Atendidas(s', resto))[1..] == Atendidas(s', resto);
      } else {
        EstoqueAposSemTransbordo(estoque, resto);
      }
    }
  }

  /** The stock product `k` ends with once the order's requests of it were checked in order. */
  function EstoqueFinal(produtos: Produtos, itens: seq<ItemPedido>, k: Id): int32
    requires k in produtos
  {
    EstoqueApos(produtos[k].quantidadeEmEstoque, QuantidadesDe(k, itens))
  }

  /** Every request the order makes of a product of the store was granted. */
  predicate PedidoAtendido(produtos: Produtos, itens: seq<ItemPedido>) {
    forall k :: k in produtos ==> TodasAtendidas(produtos[k].quantidadeEmEstoque, QuantidadesDe(k, itens))
  }

  /** How the first item of an order contributes to the requests of product `k`. */
  lemma QuantidadesDePrimeiro(itens: seq<ItemPedido>, k: Id)
    requires |itens| > 0
    ensures k != itens[0].idProduto ==> QuantidadesDe(k, itens) == QuantidadesDe(k, itens[1..])
    ensures k == itens[0].idProduto ==> QuantidadesDe(k, itens) == [itens[0].quantidade] + QuantidadesDe(k, itens[1..])
    ensures k == itens[0].idProduto ==> QuantidadesDe(k, itens)[1..] == QuantidadesDe(k, itens[1..])
  {
  }

  /** One step of the item loop leaves each product's expected final stock where it was. */
  lemma EstoqueFinalPasso(produtos: Produtos, itens: seq<ItemPedido>, k: Id)
    requires |itens| > 0 && itens[0].idProduto in produtos && k in produtos
    ensures
      var depois := Decrementar(produtos, itens[0].idProduto, itens[0].quantidade).0;
      EstoqueFinal(produtos, itens, k) == EstoqueFinal(depois, itens[1..], k)
  {
    var item := itens[0];
    var depois := Decrementar(produtos, item.idProduto, item.quantidade).0;
    QuantidadesDePrimeiro(itens, k);
    if k != item.idProduto {
      assert depois[k] == produtos[k];
    }
  }

  /**
   The item loop, seen one product at a time: each product ends where its own
   requests, checked in order, take it. A product's requests see that
   product's earlier decrements and nothing else.
   */
  lemma {:induction false} AplicarItensEstoque(produtos: Produtos, itens: seq<ItemPedido>, sucesso: bool)
    requires AplicarItens(produtos, itens, sucesso).Success?
    ensures forall k :: k in produtos ==>
      AplicarItens(produtos, itens, sucesso).value.produtos[k].quantidadeEmEstoque == EstoqueFinal(produtos, itens, k)
    decreases |itens|
  {
    if |itens| > 0 {
      var item := itens[0];
      var (depois, atendido) := Decrementar(produtos, item.idProduto, item.quantidade);
      assert AplicarItens(produtos, itens, sucesso) == AplicarItens(depois, itens[1..], sucesso && atendido);
      AplicarItensEstoque(depois, itens[1..], sucesso && atendido);
      forall k | k in produtos
        ensures EstoqueFinal(produtos, itens, k) == EstoqueFinal(depois, itens[1..], k)
      {
        EstoqueFinalPasso(produtos, itens, k);
      }
    }
  }

  /**
   The item loop reports success exactly when every request of every product
   was granted at the moment it was checked.
   */
  lemma {:induction false} AplicarItensSucesso(produtos: Produtos, itens: seq<ItemPedido>, sucesso: bool)
    requires AplicarItens(produtos, itens, sucesso).Success?
    ensures AplicarItens(produtos, itens, sucesso).value.sucesso <==> (sucesso && PedidoAtendido(produtos, itens))
    decreases |itens|
  {
    if |itens| > 0 {
      var item := itens[0];
      var j := item.idProduto;
      var resto := itens[1..];
      var s := produtos[j].quantidadeEmEstoque;
      var (depois, atendido) := Decrementar(produtos, j, item.quantidade);
      assert AplicarItens(produtos, itens, sucesso) == AplicarItens(depois, resto, sucesso && atendido);
      AplicarItensSucesso(depois, resto, sucesso && atendido);
      QuantidadesDePrimeiro(itens, j);
      if atendido {
        forall k | k in produtos
          ensures TodasAtendidas(produtos[k].quantidadeEmEstoque, QuantidadesDe(k, itens))
              <==> TodasAtendidas(depois[k].quantidadeEmEstoque, QuantidadesDe(k, resto))
        {
          QuantidadesDePrimeiro(itens, k);
        }
      } else {
        assert !TodasAtendidas(s, QuantidadesDe(j, itens));
      }
    }
  }

  /**
   `atualizarEstoque` as a whole: the response says `CONFIRMADO` exactly when
   no item found its product short, and every product ends where its own
   requests take it (by `EstoqueAposLiquido`, its initial stock minus its
   granted requests), whatever the status. On `FALHA_ESTOQUE` the granted
   decrements therefore stay in place.
   */
  lemma AtualizarEstoqueEfeito(produtos: Produtos, respostas: seq<PedidoStatusResponse>, pedido: Pedido)
    requires ProdutosExistem(produtos.Keys, pedido.itens)
    ensures
      var r := AtualizarEstoque(produtos, respostas, pedido);
      && (r.respostas[|respostas|].status == Confirmado <==> PedidoAtendido(produtos, pedido.itens))
      && (forall k :: k in produtos ==> r.produtos[k].quantidadeEmEstoque == EstoqueFinal(produtos, pedido.itens, k))
  {
    AplicarItensEstoque(produtos, pedido.itens, true);
    AplicarItensSucesso(produtos, pedido.itens, true);
  }

  /**
   The synchronous reservation and the queue path run the same check: an
   order with one item leaves the same stock as reserving that quantity, and
   is answered `CONFIRMADO` exactly when the reservation answers true.
   */
  lemma ReservarEstoqueComoPedidoUnitario(produtos: Produtos, pedido: Pedido)
    requires |pedido.itens| == 1
    ensures
      var item := pedido.itens[0];
      var reserva := ReservarEstoque(produtos, item.idProduto, item.quantidade);
      var r := AtualizarEstoque(produtos, [], pedido);
      && (reserva.resultado.Failure? <==> r.resultado.Failure?)
      && reserva.produtos == r.produtos
      && (reserva.resultado == Success(true) <==> r.respostas == [Resposta(pedido.id, true)])
  {
    var item := pedido.itens[0];
    ItensCauda(produtos.Keys, pedido.itens);
    if item.idProduto in produtos {
      var (depois, atendido) := Decrementar(produtos, item.idProduto, item.quantidade);
      assert AplicarItens(produtos, pedido.itens, true) == Success(Aplicacao(depois, atendido));
      assert Resposta(pedido.id, atendido) == Resposta(pedido.id, true) <==> atendido;
    }
  }

  /**
   Partial application: the first item is granted and stays decremented
   although the second is short and the order is answered `FALHA_ESTOQUE`.
   */
  lemma AtualizarEstoqueParcial()
    ensures
      var produtos := map[1 := Produto(1, "a", 1.0, 10), 2 := Produto(2, "b", 1.0, 10)];
      var pedido := Pedido(7, [ItemPedido(1, 2), ItemPedido(2, 100)], 0.0, Pendente);
      var r := AtualizarEstoque(produtos, [], pedido);
      && r.respostas == [PedidoStatusResponse(7, FalhaEstoque, MensagemFalha)]
      && r.produtos[1].quantidadeEmEstoque == 8
      && r.produtos[2].quantidadeEmEstoque == 10
  {
  }

  /** A later item for the same product sees the stock the earlier item left. */
  lemma AtualizarEstoqueMesmoProduto(pedido: Pedido)
    requires pedido.itens == [ItemPedido(1, 3), ItemPedido(1, 3)]
    ensures
      var produtos := map[1 := Produto(1, "a", 1.0, 5)];
      var r := AtualizarEstoque(produtos, [], pedido);
      && r.respostas == [PedidoStatusResponse(pedido.id, FalhaEstoque, MensagemFalha)]
      && r.produtos == map[1 := Produto(1, "a", 1.0, 2)]
  {
    var produtos := map[1 := Produto(1, "a", 1.0, 5)];
    var depois := map[1 := Produto(1, "a", 1.0, 2)];
    var itens := pedido.itens;
    assert itens[1..] == [ItemPedido(1, 3)] && itens[1..][1..] == [];
    assert Sub(5, 3) == 2;
    assert produtos[1 := Produto(1, "a", 1.0, 2)] == depois;
    assert Decrementar(produtos, 1, 3) == (depois, true);
    assert Decrementar(depois, 1, 3) == (depois, false);
    assert AplicarItens(produtos, itens, true) == AplicarItens(depois, itens[1..], true);
    assert AplicarItens(depois, itens[1..], true) == AplicarItens(depois, [], false);
  }
}

=== FILE: wrappers.dfy ===
/** Success/failure values standing in for the Java exceptions the services throw. */
module Wrappers {

  /** Either the value an operation returns or the error it raises. */
  datatype Result<+T, +E> = Success(value: T) | Failure(error: E)
}
